=== FILE: README.md ===
# Rigged tic-tac-toe and scripted chat flow, in Dafny

This project models the logic of a Valentine's "chat" page: a scripted
conversation that branches on the user's answers and always ends at the
same celebration, and a tic-tac-toe mini-game the page cannot lose.

- `tictactoe.dfy` (module `TicTacToe`): the nine-cell board, the eight
  winning lines, `checkWinner`, the one-ply `findWinningMove` search, and
  the cell the draw cheat flips.
- `policy.dfy` (module `Policy`): how `aiMove` picks O's cell. The order is
  win, then block (which may be skipped late in the game), then the centre,
  then a random free cell.
- `engine.dfy` (module `Engine`): the game as a state record
  `(board, gameOver, pending continuations, reported results)`. There is
  one transition per handler: the cell click, the AI turn after the
  "Thinking..." pause, the cheat swap, the draw cheat and the delayed
  completion callback. The module also holds the invariant that makes the
  game rigged, and its proof.
- `flow.dfy` (module `Flow`): the conversation. It covers the one-shot
  `hasClicked` latch on each group of choice buttons, the shared Yes/No
  latch of the last question, and the five-tap heart challenge. It also
  covers the session that runs `startChat`, `flowPart2`, then the heart or
  game detour, then `flowPart3` and the celebration.

Modelling decisions:

- Randomness is an input. `Math.random() > 0.5` in `aiMove` is a `coin`.
  Every `Math.floor(Math.random() * n)` index is `pick % n` for a
  caller-chosen `pick: nat`, so every index can be chosen.
- `setTimeout` continuations are pending steps, not durations. A click that
  does not end the game adds one to `thinking`. The cheat swap, the draw
  cheat and the delayed `onComplete` are queued `Timer`s. Any pending step
  may run at any time, so the properties hold for every firing order,
  including the real one.
- `findWinningMove` writes into the shared board and then clears the cell
  again. `TicTacToe.FindWinningMove` keeps that write-and-clear loop, and
  its contract says the board afterwards equals the board before. The rest
  of the model uses the pure `TicTacToe.WinningMove`.
- Entering a script node delivers its messages and renders its widget in
  one step. The transcript keeps the messages in order.

Two facts about the game code shape the model:

- The cheat swap does not always give O a line (script.js:324-351). When
  neither an O line nor a full board follows the swap, play resumes.
  `Engine.SwapMayLeaveNoWinner` plays such a game from the empty board.
- Every full board with no line has a line holding two O's and one X
  (`TicTacToe.DrawTarget`). So the random-X fallback at script.js:270-276
  never runs, and the draw cheat always gives O a line.

## Model

| member | source | states |
|---|---|---|
| TicTacToe.CheckWinner | script.js:149-162 | returns a mark only if that mark fills one of the eight lines; returns null exactly when no line is filled by either mark; when only one mark has a line, that mark is reported |
| TicTacToe.WinnerFrom | script.js:155-161 | scanning lines from position k finds a mark only if a later line is filled by it, and none exactly when no later line is won |
| TicTacToe.WinnerFromFirst | script.js:155-159 | the scan from position k reports the owner of the first won line at or after k; every line before it is unwon |
| TicTacToe.CheckWinnerFirst | script.js:149-162 | whichever marks have a line, checkWinner reports the owner of the first won line in scan order |
| TicTacToe.WinningMove | script.js:176-188 | result is -1 exactly when no empty cell wins for the player; otherwise it is the lowest empty cell whose filling makes checkWinner report the player |
| TicTacToe.FindWinningMove | script.js:176-188 | the write/check/clear loop returns the same cell as the specification, and the board is unchanged afterwards |
| TicTacToe.Indices | script.js:211 | lists exactly the cells holding a given mark, in increasing order (the `available` and `xIndices` lists) |
| TicTacToe.EmptyCount | script.js:197 | the number of empty cells on the board (`emptySpots`); zero exactly when the board is full, and at most nine |
| TicTacToe.DrawTarget | script.js:254-276 | -1 exactly when no line holds two O's and one X; otherwise the X cell, checked in order a, b, c, of the first such line, where the scan breaks; every full board with no line has a target, so the random fallback is never needed |
| Policy.ChooseMove | script.js:173-215 | an O win is always taken whatever the coin; otherwise X is blocked, and skipping the block needs four or fewer free cells; otherwise the centre; the move is always a free cell, and -1 exactly on a full board |
| Policy.ReplyBoard | script.js:217-227 | O fills exactly one free cell unless the board is full; an immediate O win is always the cell filled; O's move never gives X a line |
| Policy.RandomFree | script.js:210-215 | the random choice is a free cell, and -1 only on a full board |
| Policy.RandomReachesEveryFreeCell | script.js:210-215 | when the random step is reached, every free cell is a possible outcome |
| Engine.EndGame | script.js:230-243 | input stops and the board is unchanged; an O win schedules the reported loss, an X win a reported win, and no winner the draw cheat |
| Engine.Click | script.js:367-395 | ignored when gameOver is set or the cell is occupied; otherwise X lands there and no other cell changes; a click completing an X line sets gameOver and schedules the cheat swap; a click that fills the board without a line sets gameOver and schedules the draw cheat; a click that ends nothing leaves one AI turn pending; no click ever schedules a reported human win |
| Engine.AiMove | script.js:164-228 | does nothing once gameOver is set; otherwise the board becomes the policy's reply, changing at most one cell from empty to O, and an available O win is always played; a move giving O a line ends the game and schedules the reported loss; a move filling the board without a line ends the game and schedules the draw cheat; any other move hands the turn back with nothing scheduled |
| TicTacToe.TwoMarksNoLine | script.js:149-162 | a mark on at most two cells has no line |
| Engine.Think | script.js:389-393 | the pending "Thinking..." turn is consumed; once gameOver is set it changes nothing, and on a live game the board becomes O's reply; no result is reported |
| Engine.SwapBack | script.js:307-353 | the clicked cell becomes O; if every X line went through that cell, none survives; then an O line or a full board ends the game with a loss scheduled, and otherwise play resumes |
| Engine.Fire | script.js:230-351 | a fired delayed report is recorded and used up, and nothing else changes; a fired cheat swap turns its cell into an O; other continuations report nothing at once |
| Engine.SwapMayLeaveNoWinner | script.js:321-351 | in a game played from the empty board (X at 0, 1 and 6, O replying at 4, 2 and, with the block skipped, 8, then X completing the column at 3), the swap leaves no O line and a free cell, so input reopens with nothing scheduled |
| Engine.DrawFlip | script.js:252-276 | the flipped cell holds X; it is the draw target whenever one exists, and -1 only when there is no target and no X at all |
| Engine.DrawBoard | script.js:252-287 | when a line holds two O's and one X, that X is the cell flipped to O |
| Engine.FlipTargetWins | script.js:254-287 | flipping the target X of a two-O line, on a board where X has no line, makes checkWinner report O |
| Engine.ForceDraw | script.js:243-292 | at most one X turns into O; with a target and no X line, checkWinner then reports O; a loss is always scheduled |
| Engine.RunInv | script.js:132-404 | from any state satisfying the invariant, every sequence of clicks, AI turns and timer firings keeps it |
| Engine.PlayThrough | script.js:132-404 | in every reachable game X has no line while input is accepted; the callback runs at most once and only with 'loss'; the human-win branch of endGame is never scheduled; the draw cheat always finds its line |
| Engine.HumanMayMoveTwiceBeforeReply | script.js:367-393 | moves do not strictly alternate: clicks on any two distinct cells before O replies both land, leave input open and leave two AI turns pending |
| Flow.Select | script.js:103-120 | a latched group ignores clicks; the first click latches it and sends at most the label (nothing if skipMessage) and runs its callback |
| Flow.SelectAllOnce | script.js:90-120 | over any sequence of clicks on one group, at most one message is sent and one callback runs, both from the first valid click |
| Flow.TapOnce | script.js:469-503 | a tap on a cleared handler does nothing; otherwise it counts, and it completes the challenge exactly when it is the fifth |
| Flow.HeartCompletesOnce | script.js:466-503 | n taps on a fresh heart complete the challenge once if n is at least 5 and never otherwise; the handler stays set only below 5 taps |
| Flow.PressFinal | script.js:577-623 | the shared latch ignores a second press; the first press sends exactly one message, "YES YES YES! 🥰" for Yes and the autocorrected "YES YES YES !!" for No, and leads to the celebration |
| Flow.FinalLatchOnce | script.js:577-608 | any mix of Yes and No presses enters the celebration exactly once, with the lines of the first press |
| Flow.ChoicesOf | script.js:425-438 | every button of the first two questions calls a node the script graph allows, every script edge out of those two questions has a button, and no other node offers buttons |
| Flow.Says | script.js:421-630 | every node delivers at least one message, and none of them is the reply to a human win |
| Flow.Render | script.js:421-614 | every node but the celebration renders one widget that accepts input and fits that node; the game starts in a state satisfying the game invariant |
| Flow.EnterInv | script.js:421-432 | entering the next node along a script edge, after every earlier widget is spent and with no human-win reply in the transcript, keeps the session invariant: the nodes still follow the script and only the newest widget is live |
| Flow.AfterGame | script.js:554-562 | whatever the game result, one reply is sent and the flow resumes at flowPart3 |
| Flow.ConverseInv | script.js:421-623 | from any state satisfying the invariant, every sequence of user actions keeps it |
| Flow.ConversationFollowsScript | script.js:421-439 | in every run the nodes follow the script graph from startChat; no node is entered twice; the celebration comes straight after the last question; only the newest widget accepts input; the "you win" reply never appears |
| Flow.FirstOptionEverywhere | script.js:425-586 | always picking the first option visits startChat, flowPart2, flowPart3 and then the celebration |
| Flow.DoubleClickAdvancesOnce | script.js:103-120 | a double click on the first question sends one message and advances once |
| Flow.PickEntersChosen | script.js:103-120 | clicking any option of the live question sends its label and enters the node its callback names, appending that node's messages |
| Flow.SecondQuestionBranches | script.js:434-438 | at the second question, "Yep!" enters flowPart3, "Maybe..." the heart challenge and "No" the game |
| Flow.NoStartsGame | script.js:425-438 | answering the first question and then "No" visits startChat, flowPart2 and then the game |

## Left out

- DOM construction, class toggling, scrolling, reflow and the typing-indicator markup (script.js:5-43, 62-78): presentation only.
- The typing indicator's random heart (script.js:35-39) and the guarded removal of an indicator or choice container: presentation only.
- Game and heart status texts ("Thinking...", "Faster!", "DONE!") and cell CSS classes: presentation only.
- Confetti, floating hearts, bubble reactions, the cell `mousedown` heart and `navigator.vibrate` (script.js:361-365, 642-750): effects and a library the logic never reads from.
- Header interactions, the bubble tap easter eggs and `avoidMouse` (script.js:409-419, 694-725, 752-853): these are outside the game and flow logic, and the `avoidMouse` listeners are commented out.
- The character-by-character autocorrect animation (script.js:506-548). Only its end effect is modelled: the sent target text and the notice. The No button passes `skipReaction`, so no reaction follows.
- The "See? I told you I’m tricky!" message sent after a successful cheat swap (script.js:329-331): it does not feed back into the game or the flow.
- Real time: delays only order steps. Pending continuations may fire in any order, which covers more orders than real time allows.
- The 1 s pause before `flowPart3` after the heart challenge and the pause before the celebration: modelled as entering the next node directly, since no input is accepted in between that could change the outcome.
- The endless floating-heart interval of the celebration (script.js:633-638): effect only.
- Engine.Click: the clause about handing a winning click to the cheat holds only when O has no line beforehand. That always holds while input is accepted.
- Engine.DrawBoard: when no line holds two O's and one X, its contract does not say which X the random fallback flips. `Engine.DrawFlip` states that, and `TicTacToe.DrawTarget` shows the fallback is never reached from a full board without a line.

=== FILE: engine.dfy ===
/**
 The rigged tic-tac-toe game as a state machine. Each handler of the
 source is one transition: a cell click, the AI's turn that runs after
 the "Thinking..." pause, and the firing of each delayed continuation
 (the swap of a winning X to O, the draw cheat, and the delayed call of
 the completion callback). Delays are not modelled as time: a pending
 continuation may fire at any point after it was scheduled, so every
 property proved here holds whatever order the timers fire in.
 */
module Engine {
  import opened TicTacToe
  import opened Policy

  /** The value handed to the completion callback ('loss', 'win', 'draw'). */
  datatype Result = Loss | Win | Draw

  /** A delayed continuation other than the AI's turn. */
  datatype Timer =
    | SwapToO(cell: Index)   // triggerCheatWin: turn the winning X into an O
    | ForceDrawWin           // endGame on a draw: flip an X to O
    | Report(result: Result) // the delayed onComplete(result)

  /** `thinking` counts the AI turns scheduled by clicks and not yet run;
      `reported` lists the results already handed to the callback. */
  datatype Game = Game(
    board: Board,
    gameOver: bool,
    thinking: nat,
    timers: seq<Timer>,
    reported: seq<Result>)

  /** A fresh game: empty board, input accepted, nothing scheduled. */
  const Start: Game := Game(EmptyBoard, false, 0, [], [])

  /** `endGame`: stop input and schedule what follows the given winner. */
  function EndGame(g: Game, winner: Cell): (r: Game)
    ensures r.gameOver
    ensures r.board == g.board && r.reported == g.reported && r.thinking == g.thinking
    // O's win is reported as the human's loss
    ensures winner == O ==> r.timers == g.timers + [Report(Loss)]
    // an X win would be reported as the human's win
    ensures winner == X ==> r.timers == g.timers + [Report(Win)]
    // no winner: the draw cheat runs next
    ensures winner == Empty ==> r.timers == g.timers + [ForceDrawWin]
  {
    var next := match winner
      case O => Report(Loss)
      case X => Report(Win)
      case Empty => ForceDrawWin;
    g.(gameOver := true, timers := g.timers + [next])
  }

  /** A click on cell `i`. */
  function Click(g: Game, i: Index): (r: Game)
    // ignored while input is blocked or on an occupied cell
    ensures g.gameOver || g.board[i] != Empty ==> r == g
    // otherwise X lands on the cell and nothing else on the board changes
    ensures !g.gameOver && g.board[i] == Empty ==> r.board == g.board[i := X]
    // a click that completes an X line is handed to the cheat, with input blocked
    ensures (!g.gameOver && g.board[i] == Empty && HasLine(g.board[i := X], X) && !HasLine(g.board, O))
              ==> r.gameOver && r.timers == g.timers + [SwapToO(i)] && r.thinking == g.thinking
    // a click that ends nothing leaves one AI turn pending
    ensures (!g.gameOver && g.board[i] == Empty && NoLine(g.board[i := X]) && !Full(g.board[i := X]))
              ==> r == g.(board := g.board[i := X], thinking := g.thinking + 1)
    // a click that fills the board without a line ends the game and schedules the draw cheat
    ensures (!g.gameOver && g.board[i] == Empty && NoLine(g.board[i := X]) && Full(g.board[i := X]))
              ==> r.gameOver && r.timers == g.timers + [ForceDrawWin] && r.thinking == g.thinking
    // a click never schedules a reported human win
    ensures forall k :: |g.timers| <= k < |r.timers| ==> r.timers[k] != Report(Win)
    ensures r.reported == g.reported
  {
    if g.gameOver || g.board[i] != Empty then g
    else
      var b := g.board[i := X];
      if CheckWinner(b) == X then
        g.(board := b, gameOver := true, timers := g.timers + [SwapToO(i)])
      else
        var winner := CheckWinner(b);
        if winner != Empty || Full(b) then EndGame(g.(board := b), winner)
        else g.(board := b, thinking := g.thinking + 1)
  }

  /** `aiMove`: O's move on a normal turn. */
  function AiMove(g: Game, coin: bool, pick: nat): (r: Game)
    ensures g.gameOver ==> r == g
    // at most one cell changes, from empty to O
    ensures ChangesAtMostOne(g.board, r.board, Empty, O)
    // an immediate win for O is always played, whatever the coin
    ensures (!g.gameOver && WinningMove(g.board, O) != -1)
              ==> r.board == g.board[WinningMove(g.board, O) := O] && r.gameOver
    // the cell O takes is the one the move policy chooses
    ensures !g.gameOver ==> r.board == ReplyBoard(g.board, coin, pick)
    // a move that gives O a line ends the game and schedules the reported loss
    ensures (!g.gameOver && NoLine(g.board) && HasLine(r.board, O))
              ==> r.gameOver && r.timers == g.timers + [Report(Loss)]
    // a move that fills the board without a line ends the game and schedules the draw cheat
    ensures (!g.gameOver && !Full(g.board) && NoLine(r.board) && Full(r.board))
              ==> r.gameOver && r.timers == g.timers + [ForceDrawWin]
    // any other move hands the turn back to the human
    ensures (!g.gameOver && NoLine(r.board) && !Full(r.board)) ==> !r.gameOver && r.timers == g.timers
    ensures r.reported == g.reported && r.thinking == g.thinking
  {
    if g.gameOver || Full(g.board) then g
    else
      var b := ReplyBoard(g.board, coin, pick);
      var winner := CheckWinner(b);
      if winner != Empty || Full(b) then EndGame(g.(board := b), winner)
      else g.(board := b)
  }

  /** The "Thinking..." continuation: one scheduled AI turn runs. */
  function Think(g: Game, coin: bool, pick: nat): (r: Game)
    requires g.thinking > 0
    ensures r.thinking == g.thinking - 1
    ensures g.gameOver ==> r.board == g.board && r.timers == g.timers
    // on a live game the pending turn is O's move
    ensures !g.gameOver ==> r.board == ReplyBoard(g.board, coin, pick)
    ensures r.reported == g.reported
  {
    AiMove(g.(thinking := g.thinking - 1), coin, pick)
  }

  /** The continuation of `triggerCheatWin`: the winning X on `cell`
      becomes an O, then the game ends or play resumes. */
  function SwapBack(g: Game, cell: Index): (r: Game)
    ensures r.board == g.board[cell := O]
    ensures r.reported == g.reported && r.thinking == g.thinking
    // when every line X had went through the clicked cell, none survives
    ensures g.board[cell] == X && NoLine(g.board[cell := Empty]) ==> !HasLine(r.board, X)
    // then an O line or a full board ends the game with a reported loss
    ensures (g.board[cell] == X && NoLine(g.board[cell := Empty]) && (HasLine(r.board, O) || Full(r.board)))
              ==> r.gameOver && r.timers == g.timers + [Report(Loss)]
    // and otherwise play resumes with input accepted again
    ensures (g.board[cell] == X && NoLine(g.board[cell := Empty]) && !HasLine(r.board, O) && !Full(r.board))
              ==> !r.gameOver && r.timers == g.timers
  {
    var b := g.board[cell := O];
    var c := g.board[cell := Empty];
    assert c[cell := O] == b;
    PlacingKeepsOtherLines(c, cell, O, X);
    if CheckWinner(b) == O then g.(board := b, gameOver := true, timers := g.timers + [Report(Loss)])
    else if Full(b) then g.(board := b, gameOver := true, timers := g.timers + [Report(Loss)])
    else g.(board := b, gameOver := false)
  }

  /** The cell the draw cheat flips: the X of the first line with two O's
      and one X, else the `pick`-th X, else none (-1). */
  function DrawFlip(board: Board, pick: nat): (r: int)
    ensures r == -1 || (0 <= r < 9 && board[r] == X)
    ensures DrawTarget(board) != -1 ==> r == DrawTarget(board)
    ensures r == -1 <==> DrawTarget(board) == -1 && forall j: Index :: board[j] != X
  {
    var target := DrawTarget(board);
    if target != -1 then target
    else
      var xs := Indices(board, X);
      if |xs| > 0 then
        assert xs[pick % |xs|] in xs;
        xs[pick % |xs|]
      else
        assert forall j: Index :: board[j] != X by {
          forall j: Index ensures board[j] != X {
            assert board[j] == X ==> j in xs;
          }
        }
        -1
  }

  /** The board after the draw cheat: the flipped X, if any, becomes an O. */
  function DrawBoard(board: Board, pick: nat): (r: Board)
    // the draw target is the cell flipped, when there is one
    ensures DrawTarget(board) != -1 ==> r == board[DrawTarget(board) := O]
  {
    var t := DrawFlip(board, pick);
    if t == -1 then board else board[t := O]
  }

  /** The draw cheat changes at most one cell, from X to O. */
  lemma DrawChangesOne(board: Board, pick: nat)
    ensures ChangesAtMostOne(board, DrawBoard(board, pick), X, O)
  {
    var t := DrawFlip(board, pick);
    if t != -1 {
      UpdateChangesOne(board, t, X, O);
    }
  }

  /** The draw continuation of `endGame`: flip one X to O and report a loss
      whatever the board then shows. */
  function ForceDraw(g: Game, pick: nat): (r: Game)
    ensures ChangesAtMostOne(g.board, r.board, X, O)
    ensures !HasLine(g.board, X) && DrawTarget(g.board) != -1 ==> CheckWinner(r.board) == O
    ensures r.timers == g.timers + [Report(Loss)]
    ensures r.gameOver == g.gameOver && r.reported == g.reported && r.thinking == g.thinking
  {
    FlipTargetWins(g.board);
    DrawChangesOne(g.board, pick);
    g.(board := DrawBoard(g.board, pick), timers := g.timers + [Report(Loss)])
  }

  /** Flipping the draw target completes its two-O line and gives X none. */
  lemma FlipTargetWins(board: Board)
    ensures !HasLine(board, X) && DrawTarget(board) != -1 ==> CheckWinner(board[DrawTarget(board) := O]) == O
  {
    if !HasLine(board, X) && DrawTarget(board) != -1 {
      var t := DrawTarget(board);
      var k :| 0 <= k < |Lines| && TwoOneX(board, k) && t == XCellOf(board, Lines[k]);
      assert Owns(board[t := O], Lines[k], O);
      PlacingKeepsOtherLines(board, t, O, X);
    }
  }

  /** Drop the timer at position `k`. */
  function Without(timers: seq<Timer>, k: nat): (r: seq<Timer>)
    requires k < |timers|
    ensures |r| == |timers| - 1
    ensures multiset(r) == multiset(timers) - multiset{timers[k]}
  {
    assert timers == timers[..k] + [timers[k]] + timers[k + 1..];
    timers[..k] + timers[k + 1..]
  }

  /** The scheduled continuation at position `k` runs. */
  function Fire(g: Game, k: nat, pick: nat): (r: Game)
    requires k < |g.timers|
    ensures g.timers[k].Report? ==> r.reported == g.reported + [g.timers[k].result]
    ensures !g.timers[k].Report? ==> r.reported == g.reported
    // a delayed report is used up and touches nothing else
    ensures g.timers[k].Report? ==> r.timers == Without(g.timers, k) && r.board == g.board
                                     && r.gameOver == g.gameOver && r.thinking == g.thinking
    // the cheat swap turns its cell into an O
    ensures g.timers[k].SwapToO? ==> r.board == g.board[g.timers[k].cell := O]
  {
    var rest := g.(timers := Without(g.timers, k));
    match g.timers[k]
    case SwapToO(cell) => SwapBack(rest, cell)
    case ForceDrawWin => ForceDraw(rest, pick)
    case Report(result) => rest.(reported := g.reported + [result])
  }

  /** One event: a click, an AI turn with its two random draws, or the
      firing of a scheduled continuation. */
  datatype Event =
    | Tap(cell: Index)
    | AiTurn(coin: bool, pick: nat)
    | Timeout(k: nat, pick: nat)

  /** Apply an event; an AI turn or timer that is not scheduled does not exist. */
  function Step(g: Game, e: Event): Game {
    match e
    case Tap(cell) => Click(g, cell)
    case AiTurn(coin, pick) => if g.thinking > 0 then Think(g, coin, pick) else g
    case Timeout(k, pick) => if k < |g.timers| then Fire(g, k, pick) else g
  }

  function Run(g: Game, events: seq<Event>): Game
    decreases |events|
  {
    if events == [] then g else Run(Step(g, events[0]), events[1..])
  }

  /** What a scheduled timer may rely on when it fires. */
  predicate TimerSound(board: Board, t: Timer) {
    match t
    case SwapToO(cell) => board[cell] == X && NoLine(board[cell := Empty])
    case ForceDrawWin => Full(board) && NoLine(board)
    case Report(result) => result == Loss
  }

  /** The invariant of every reachable game. */
  predicate Inv(g: Game) {
    // while input is accepted nobody has a line, a cell is free and nothing is scheduled
    && (!g.gameOver ==> NoLine(g.board) && !Full(g.board) && g.timers == [] && g.reported == [])
    // once input is blocked, exactly one continuation is pending or one result reported
    && (g.gameOver ==> |g.timers| + |g.reported| == 1)
    && (forall k :: 0 <= k < |g.timers| ==> TimerSound(g.board, g.timers[k]))
    && (forall k :: 0 <= k < |g.reported| ==> g.reported[k] == Loss)
  }

  lemma StartInv()
    ensures Inv(Start)
  {
    assert !HasLine(EmptyBoard, X) && !HasLine(EmptyBoard, O) by {
      forall k | 0 <= k < |Lines| ensures !Owns(EmptyBoard, Lines[k], X) && !Owns(EmptyBoard, Lines[k], O) {
      }
    }
    assert EmptyBoard[0] == Empty;
  }

  /** A game that ends from a line-free board never schedules a human win. */
  lemma EndGameInv(g: Game, b: Board, winner: Cell)
    requires !g.gameOver && g.timers == [] && g.reported == []
    requires winner == CheckWinner(b) && winner != X
    requires winner != Empty || Full(b)
    ensures Inv(EndGame(g.(board := b), winner))
  {
  }

  lemma ClickInv(g: Game, i: Index)
    requires Inv(g)
    ensures Inv(Click(g, i))
  {
    if !g.gameOver && g.board[i] == Empty {
      if CheckWinner(g.board[i := X]) == X {
        HandoffInv(g, i);
      } else {
        PlacingKeepsOtherLines(g.board, i, X, O);
        PlainClickInv(g, i);
      }
    }
  }

  /** A click completing an X line leaves just the cheat swap pending,
      and the swap's premise holds. */
  lemma HandoffInv(g: Game, i: Index)
    requires !g.gameOver && g.timers == [] && g.reported == [] && NoLine(g.board)
    requires g.board[i] == Empty && CheckWinner(g.board[i := X]) == X
    ensures Inv(Click(g, i))
  {
    var b := g.board[i := X];
    assert b[i := Empty] == g.board;
    assert TimerSound(b, SwapToO(i));
    assert Click(g, i) == g.(board := b, gameOver := true, timers := [SwapToO(i)]);
  }

  /** Any other click leaves a line-free board: play goes on, or on a
      full board the draw cheat is pending. */
  lemma PlainClickInv(g: Game, i: Index)
    requires !g.gameOver && g.timers == [] && g.reported == []
    requires g.board[i] == Empty && NoLine(g.board[i := X])
    ensures Inv(Click(g, i))
  {
    var b := g.board[i := X];
    if Full(b) {
      EndGameInv(g, b, Empty);
    }
  }

  lemma AiMoveInv(g: Game, coin: bool, pick: nat)
    requires Inv(g)
    ensures Inv(AiMove(g, coin, pick))
  {
    if !g.gameOver {
      var b := ReplyBoard(g.board, coin, pick);
      var winner := CheckWinner(b);
      if winner != Empty || Full(b) {
        EndGameInv(g, b, winner);
      }
    }
  }

  lemma FireInv(g: Game, k: nat, pick: nat)
    requires Inv(g) && k < |g.timers|
    ensures Inv(Fire(g, k, pick))
  {
    assert g.gameOver && |g.timers| == 1 && g.reported == [] && k == 0;
    assert Without(g.timers, k) == [];
    assert TimerSound(g.board, g.timers[k]);
    match g.timers[k]
    case SwapToO(cell) => SwapInv(g.(timers := []), cell);
    case ForceDrawWin => DrawInv(g.(timers := []), pick);
    case Report(result) =>
  }

  /** The cheat swap leaves a game that is either resumed and line-free
      or over with a loss pending. */
  lemma SwapInv(g: Game, cell: Index)
    requires g.gameOver && g.timers == [] && g.reported == []
    requires g.board[cell] == X && NoLine(g.board[cell := Empty])
    ensures Inv(SwapBack(g, cell))
  {
  }

  /** The draw cheat leaves a finished game with a loss pending. */
  lemma DrawInv(g: Game, pick: nat)
    requires g.gameOver && g.timers == [] && g.reported == []
    ensures Inv(ForceDraw(g, pick))
  {
    var r := ForceDraw(g, pick);
    assert r.gameOver && r.timers == [Report(Loss)] && r.reported == [];
    assert TimerSound(r.board, r.timers[0]);
  }

  lemma StepInv(g: Game, e: Event)
    requires Inv(g)
    ensures Inv(Step(g, e))
  {
    match e
    case Tap(cell) => ClickInv(g, cell);
    case AiTurn(coin, pick) =>
      if g.thinking > 0 {
        AiMoveInv(g.(thinking := g.thinking - 1), coin, pick);
      }
    case Timeout(k, pick) =>
      if k < |g.timers| {
        FireInv(g, k, pick);
      }
  }

  lemma {:induction false} RunInv(g: Game, events: seq<Event>)
    requires Inv(g)
    ensures Inv(Run(g, events))
    decreases |events|
  {
    if events != [] {
      StepInv(g, events[0]);
      RunInv(Step(g, events[0]), events[1..]);
    }
  }

  /** A whole game from the start, in any order of clicks, AI turns and
      timers. Whatever happens: while input is accepted X has no line; the
      completion callback is called at most once and only with a loss; no
      human win is ever scheduled; and the draw cheat always finds a line
      to complete, so its random fallback is never taken. */
  lemma PlayThrough(events: seq<Event>)
    ensures var g := Run(Start, events);
      && (!g.gameOver ==> !HasLine(g.board, X))
      && |g.reported| <= 1 && (forall k :: 0 <= k < |g.reported| ==> g.reported[k] == Loss)
      && Report(Win) !in g.timers
      && (ForceDrawWin in g.timers ==> DrawTarget(g.board) != -1)
  {
    StartInv();
    RunInv(Start, events);
    InvGuarantees(Run(Start, events));
  }

  /** What the invariant promises about a single game. */
  lemma InvGuarantees(g: Game)
    requires Inv(g)
    ensures !g.gameOver ==> !HasLine(g.board, X)
    ensures |g.reported| <= 1 && forall k :: 0 <= k < |g.reported| ==> g.reported[k] == Loss
    ensures Report(Win) !in g.timers
    ensures ForceDrawWin in g.timers ==> DrawTarget(g.board) != -1
  {
    if ForceDrawWin in g.timers {
      var k :| 0 <= k < |g.timers| && g.timers[k] == ForceDrawWin;
      assert TimerSound(g.board, g.timers[k]);
    }
  }

  /** Moves do not strictly alternate: during the "Thinking..." pause
      input is still accepted, so any second click lands before O replies
      and two AI turns end up scheduled. */
  lemma HumanMayMoveTwiceBeforeReply(i: Index, j: Index)
    requires i != j
    ensures Run(Start, [Tap(i), Tap(j)]) == Game(EmptyBoard[i := X][j := X], false, 2, [], [])
  {
    var b1 := EmptyBoard[i := X];
    var b2 := b1[j := X];
    TwoMarksNoLine(b1, X, i, i);
    TwoMarksNoLine(b1, O, i, i);
    TwoMarksNoLine(b2, X, i, j);
    TwoMarksNoLine(b2, O, i, j);
    var k: Index := if 0 != i && 0 != j then 0 else if 1 != i && 1 != j then 1 else 2;
    assert b1[j] == Empty && b2[k] == Empty;
    var g1 := Game(b1, false, 1, [], []);
    assert Click(Start, i) == g1;
    assert [Tap(i), Tap(j)][1..] == [Tap(j)];
    assert Run(g1, [Tap(j)]) == Run(Click(g1, j), []);
  }

  // ---------------------------------------------------------------------
  // A game in which the cheat swap lets play resume
  // ---------------------------------------------------------------------

  /** X opens in the corner, O takes the centre; X threatens the top row
      and O blocks; X plays 6, and with four cells free the coin lets O
      skip the block of the left column, so the draw lands on 8; X then
      completes the left column, and the swap turns cell 3 into an O. */
  const ResumeEvents: seq<Event> :=
    [Tap(0), AiTurn(false, 0), Tap(1), AiTurn(false, 0), Tap(6), AiTurn(true, 3), Tap(3), Timeout(0, 0)]

  /** Board `b` holds the nine marks `cells`, cell by cell. */
  predicate Shows(b: Board, cells: seq<Cell>)
    requires |cells| == 9
  {
    b[0] == cells[0] && b[1] == cells[1] && b[2] == cells[2]
    && b[3] == cells[3] && b[4] == cells[4] && b[5] == cells[5]
    && b[6] == cells[6] && b[7] == cells[7] && b[8] == cells[8]
  }

  /** After X's opening in the corner, O takes the centre. */
  lemma OpeningReply(b: Board)
    requires Shows(b, [X, Empty, Empty, Empty, Empty, Empty, Empty, Empty, Empty])
    ensures NoLine(b) && !Full(b) && ReplyBoard(b, false, 0) == b[4 := O]
    ensures Shows(b[4 := O], [X, Empty, Empty, Empty, O, Empty, Empty, Empty, Empty])
    ensures NoLine(b[4 := O]) && !Full(b[4 := O])
  {
    TwoMarksNoLine(b[4 := O], X, 0, 0);
    TwoMarksNoLine(b[4 := O], O, 4, 4);
    TwoMarksNoLine(b, X, 0, 0);
    TwoMarksNoLine(b, O, 0, 0);
    forall j: Index
      ensures !WinsAt(b, j, O) && !WinsAt(b, j, X)
    {
      TwoMarksNoLine(b[j := O], O, j, j);
      TwoMarksNoLine(b[j := X], X, 0, j);
    }
    assert ChooseMove(b, false, 0) == 4;
  }

  /** X's threat on the top row is blocked at cell 2. */
  lemma BlockReply(b: Board)
    requires Shows(b, [X, X, Empty, Empty, O, Empty, Empty, Empty, Empty])
    ensures NoLine(b) && !Full(b) && ReplyBoard(b, false, 0) == b[2 := O]
    ensures Shows(b[2 := O], [X, X, O, Empty, O, Empty, Empty, Empty, Empty])
    ensures NoLine(b[2 := O]) && !Full(b[2 := O])
  {
    TwoMarksNoLine(b[2 := O], X, 0, 1);
    TwoMarksNoLine(b[2 := O], O, 2, 4);
    TwoMarksNoLine(b, X, 0, 1);
    TwoMarksNoLine(b, O, 4, 4);
    forall j: Index
      ensures !WinsAt(b, j, O)
    {
      TwoMarksNoLine(b[j := O], O, 4, j);
    }
    assert Owns(b[2 := X], Lines[0], X);
    TwoMarksNoLine(b[2 := X], O, 4, 4);
    assert WinsAt(b, 2, X);
    assert WinningMove(b, X) == 2;
    assert ChooseMove(b, false, 0) == 2;
  }

  /** The free cells once X has played 0, 1 and 6 and O 2 and 4. */
  lemma ForkFreeCells(b: Board)
    requires Shows(b, [X, X, O, Empty, O, Empty, X, Empty, Empty])
    ensures Indices(b, Empty) == [3, 5, 7, 8]
  {
    assert IndicesFrom(b, Empty, 9) == [];
    assert IndicesFrom(b, Empty, 7) == [7, 8];
    assert IndicesFrom(b, Empty, 5) == [5, 7, 8];
    assert IndicesFrom(b, Empty, 3) == [3, 5, 7, 8];
  }

  /** With four cells free the coin lets O leave the left column open,
      and the random draw 3 lands on cell 8. */
  lemma SkipReply(b: Board)
    requires Shows(b, [X, X, O, Empty, O, Empty, X, Empty, Empty])
    ensures NoLine(b) && !Full(b) && ReplyBoard(b, true, 3) == b[8 := O]
    ensures Shows(b[8 := O], [X, X, O, Empty, O, Empty, X, Empty, O])
    ensures NoLine(b[8 := O]) && !Full(b[8 := O])
  {
    NoLineByCases(b[8 := O], X);
    NoLineByCases(b[8 := O], O);
    NoLineByCases(b, X);
    TwoMarksNoLine(b, O, 2, 4);
    forall j: Index
      ensures !WinsAt(b, j, O)
    {
      if b[j] == Empty {
        assert j == 3 || j == 5 || j == 7 || j == 8;
        NoLineByCases(b[j := O], O);
      }
    }
    ForkFreeCells(b);
    assert SkipsBlock(b, true);
    assert RandomFree(b, 3) == 8;
    assert ChooseMove(b, true, 3) == 8;
  }

  /** X completes the left column; once the swap has turned cell 3 into an
      O, nobody has a line and cell 5 is still free. */
  lemma ColumnAndSwap(b: Board)
    requires Shows(b, [X, X, O, Empty, O, Empty, X, Empty, O])
    ensures b[3] == Empty && !HasLine(b, O) && HasLine(b[3 := X], X)
    ensures b[3 := X][3 := Empty] == b && b[3 := X][3 := O] == b[3 := O]
    ensures NoLine(b[3 := O]) && !Full(b[3 := O])
    ensures Shows(b[3 := O], [X, X, O, O, O, Empty, X, Empty, O])
  {
    NoLineByCases(b, O);
    assert Owns(b[3 := X], Lines[3], X);
    NoLineByCases(b[3 := O], O);
    NoLineByCases(b[3 := O], X);
  }

  /** A click that ends nothing, followed by O's reply that ends nothing,
      leaves the game open with O's reply on the board. */
  lemma PlainTurn(g: Game, i: Index, coin: bool, pick: nat, rest: seq<Event>)
    requires !g.gameOver && g.thinking == 0 && g.board[i] == Empty
    requires NoLine(g.board[i := X]) && !Full(g.board[i := X])
    requires NoLine(ReplyBoard(g.board[i := X], coin, pick)) && !Full(ReplyBoard(g.board[i := X], coin, pick))
    ensures Run(g, [Tap(i), AiTurn(coin, pick)] + rest)
            == Run(g.(board := ReplyBoard(g.board[i := X], coin, pick)), rest)
  {
    var e := [Tap(i), AiTurn(coin, pick)] + rest;
    assert e[1..][1..] == rest;
  }

  /** X completes the left column: input stops and the swap is scheduled. */
  lemma ColumnClick(g: Game) returns (next: Game)
    requires Shows(g.board, [X, X, O, Empty, O, Empty, X, Empty, O])
    requires !g.gameOver && g.thinking == 0 && g.timers == [] && g.reported == []
    ensures Step(g, Tap(3)) == next
    ensures next == Game(g.board[3 := X], true, 0, [SwapToO(3)], [])
  {
    ColumnAndSwap(g.board);
    next := Click(g, 3);
  }

  /** The swap breaks X's column, and play resumes. */
  lemma ColumnSwap(b: Board) returns (next: Game)
    requires Shows(b, [X, X, O, Empty, O, Empty, X, Empty, O])
    ensures Step(Game(b[3 := X], true, 0, [SwapToO(3)], []), Timeout(0, 0)) == next
    ensures Shows(next.board, [X, X, O, O, O, Empty, X, Empty, O])
    ensures !next.gameOver && next.thinking == 0 && next.timers == [] && next.reported == []
  {
    ColumnAndSwap(b);
    next := Fire(Game(b[3 := X], true, 0, [SwapToO(3)], []), 0, 0);
  }

  /** X completes the left column and the swap then breaks it. */
  lemma ColumnRun(g: Game)
    requires Shows(g.board, [X, X, O, Empty, O, Empty, X, Empty, O])
    requires !g.gameOver && g.thinking == 0 && g.timers == [] && g.reported == []
    ensures var r := Run(g, [Tap(3), Timeout(0, 0)]);
      && Shows(r.board, [X, X, O, O, O, Empty, X, Empty, O])
      && !r.gameOver && r.timers == [] && r.reported == []
  {
    var g7 := ColumnClick(g);
    var g8 := ColumnSwap(g.board);
    assert [Tap(3), Timeout(0, 0)][1..] == [Timeout(0, 0)];
    assert Run(g8, []) == g8;
  }

  /** The events of the game, as three turns and the final click. */
  lemma ResumeEventsSplit()
    ensures ResumeEvents == [Tap(0), AiTurn(false, 0)] + ([Tap(1), AiTurn(false, 0)]
                            + ([Tap(6), AiTurn(true, 3)] + [Tap(3), Timeout(0, 0)]))
  {
  }

  /** The first turn: X opens in the corner and O takes the centre. */
  lemma OpeningTurn(g: Game, rest: seq<Event>) returns (next: Game)
    requires Shows(g.board, EmptyBoard) && !g.gameOver && g.thinking == 0 && g.timers == [] && g.reported == []
    ensures Run(g, [Tap(0), AiTurn(false, 0)] + rest) == Run(next, rest)
    ensures Shows(next.board, [X, Empty, Empty, Empty, O, Empty, Empty, Empty, Empty])
    ensures !next.gameOver && next.thinking == 0 && next.timers == [] && next.reported == []
  {
    var b := g.board[0 := X];
    OpeningReply(b);
    PlainTurn(g, 0, false, 0, rest);
    next := g.(board := b[4 := O]);
  }

  /** The second turn: X threatens the top row and O blocks it. */
  lemma BlockingTurn(g: Game, rest: seq<Event>) returns (next: Game)
    requires Shows(g.board, [X, Empty, Empty, Empty, O, Empty, Empty, Empty, Empty])
    requires !g.gameOver && g.thinking == 0 && g.timers == [] && g.reported == []
    ensures Run(g, [Tap(1), AiTurn(false, 0)] + rest) == Run(next, rest)
    ensures Shows(next.board, [X, X, O, Empty, O, Empty, Empty, Empty, Empty])
    ensures !next.gameOver && next.thinking == 0 && next.timers == [] && next.reported == []
  {
    var b := g.board[1 := X];
    BlockReply(b);
    PlainTurn(g, 1, false, 0, rest);
    next := g.(board := b[2 := O]);
  }

  /** The third turn: X plays 6, and O leaves the left column open. */
  lemma SkippingTurn(g: Game, rest: seq<Event>) returns (next: Game)
    requires Shows(g.board, [X, X, O, Empty, O, Empty, Empty, Empty, Empty])
    requires !g.gameOver && g.thinking == 0 && g.timers == [] && g.reported == []
    ensures Run(g, [Tap(6), AiTurn(true, 3)] + rest) == Run(next, rest)
    ensures Shows(next.board, [X, X, O, Empty, O, Empty, X, Empty, O])
    ensures !next.gameOver && next.thinking == 0 && next.timers == [] && next.reported == []
  {
    var b := g.board[6 := X];
    SkipReply(b);
    PlainTurn(g, 6, true, 3, rest);
    next := g.(board := b[8 := O]);
  }

  /** The cheat swap does not always give O a line. From the start (an
      empty board with nothing pending), X completes the left column, the
      swap breaks it, and play resumes with input accepted, nothing
      scheduled and nothing reported. */
  lemma SwapMayLeaveNoWinner(g: Game)
    requires Shows(g.board, EmptyBoard) && !g.gameOver && g.thinking == 0 && g.timers == [] && g.reported == []
    ensures var r := Run(g, ResumeEvents);
      && Shows(r.board, [X, X, O, O, O, Empty, X, Empty, O])
      && !r.gameOver && r.timers == [] && r.reported == []
  {
    var last := [Tap(3), Timeout(0, 0)];
    var third := [Tap(6), AiTurn(true, 3)] + last;
    var second := [Tap(1), AiTurn(false, 0)] + third;
    ResumeEventsSplit();
    var g2 := OpeningTurn(g, second);
    var g4 := BlockingTurn(g2, third);
    var g6 := SkippingTurn(g4, last);
    ColumnRun(g6);
  }
}

=== FILE: flow.dfy ===
/**
 The scripted conversation: its nodes (`startChat`, `flowPart2`, the heart
 challenge, the tic-tac-toe detour, `flowPart3`, the celebration), the
 one-shot latches on every group of choice buttons, the heart tap counter,
 and the session that ties them together. Entering a node delivers its
 messages and renders its widget in one step; delays only order steps.
 */
module Flow {
  import opened Engine

  datatype Option<T> = None | Some(value: T)

  datatype Node = StartChat | FlowPart2 | HeartChallenge | FlowTicTacToe | FlowPart3 | Celebration

  /** A line of the chat as it appears on screen. */
  datatype ChatLine = Received(text: string) | Sent(text: string) | Notice(text: string)

  // ---------------------------------------------------------------------
  // Choice buttons (`addChoices`)
  // ---------------------------------------------------------------------

  /** One button: its label, whether clicking it skips echoing the label
      as a sent message, and the node it calls. */
  datatype Choice = Choice(text: string, skipMessage: bool, callback: Option<Node>)

  /** A rendered group of buttons sharing one `hasClicked` flag. */
  datatype ChoiceSet = ChoiceSet(options: seq<Choice>, clicked: bool)

  /** What a click produced: the group afterwards, the sent messages and
      the callbacks run. */
  datatype Selection = Selection(choices: ChoiceSet, sent: seq<string>, calls: seq<Node>)

  /** The echoed label of a choice, unless it skips the message. */
  function Echo(c: Choice): seq<string> {
    if c.skipMessage then [] else [c.text]
  }

  function CallOf(c: Choice): seq<Node> {
    match c.callback
    case Some(n) => [n]
    case None => []
  }

  /** A click on button `k`. */
  function Select(cs: ChoiceSet, k: nat): (r: Selection)
    requires k < |cs.options|
    // the latch is set and the buttons stay as they are
    ensures r.choices == cs.(clicked := true)
    // a latched group ignores the click entirely
    ensures cs.clicked ==> r.sent == [] && r.calls == []
    // the first click sends at most one message and runs at most one callback
    ensures |r.sent| <= 1 && |r.calls| <= 1
    ensures !cs.clicked ==> r.sent == Echo(cs.options[k]) && r.calls == CallOf(cs.options[k])
  {
    if cs.clicked then Selection(cs, [], [])
    else Selection(cs.(clicked := true), Echo(cs.options[k]), CallOf(cs.options[k]))
  }

  /** Clicks on buttons `ks` in turn (a click on no button does nothing),
      with the sent messages and callbacks of all of them. */
  function SelectAll(cs: ChoiceSet, ks: seq<nat>): Selection
    decreases |ks|
  {
    if ks == [] then Selection(cs, [], [])
    else
      var first := if ks[0] < |cs.options| then Select(cs, ks[0]) else Selection(cs, [], []);
      var rest := SelectAll(first.choices, ks[1..]);
      Selection(rest.choices, first.sent + rest.sent, first.calls + rest.calls)
  }

  /** However many clicks arrive, only the first on a live group counts:
      one sent message at most (none if it skips it) and one callback. */
  lemma {:induction false} SelectAllOnce(cs: ChoiceSet, ks: seq<nat>)
    ensures var r := SelectAll(cs, ks);
      && (cs.clicked ==> r.sent == [] && r.calls == [])
      && ((!cs.clicked && ks != [] && ks[0] < |cs.options|)
            ==> r.sent == Echo(cs.options[ks[0]]) && r.calls == CallOf(cs.options[ks[0]]))
      && |r.sent| <= 1 && |r.calls| <= 1
    decreases |ks|
  {
    if ks != [] {
      var first := if ks[0] < |cs.options| then Select(cs, ks[0]) else Selection(cs, [], []);
      SelectAllOnce(first.choices, ks[1..]);
      if !cs.clicked && ks[0] >= |cs.options| {
        SelectAllOnce(cs, ks[1..]);
      }
    }
  }

  // ---------------------------------------------------------------------
  // The heart challenge tap counter
  // ---------------------------------------------------------------------

  const RequiredTaps: nat := 5

  /** The heart button: taps so far and whether its click handler is still set. */
  datatype Heart = Heart(taps: nat, armed: bool)

  datatype Tapped = Tapped(heart: Heart, done: bool)

  /** One tap; `done` when this tap completed the challenge (the handler
      then clears itself and `flowPart3` is scheduled). */
  function TapOnce(h: Heart): (r: Tapped)
    ensures !h.armed ==> r == Tapped(h, false)
    ensures h.armed ==> r.heart.taps == h.taps + 1
    ensures r.done <==> h.armed && h.taps + 1 >= RequiredTaps
    ensures r.heart.armed <==> h.armed && !r.done
  {
    if !h.armed then Tapped(h, false)
    else
      var taps := h.taps + 1;
      if taps >= RequiredTaps then Tapped(Heart(taps, false), true)
      else Tapped(Heart(taps, true), false)
  }

  /** `n` taps in a row: the heart afterwards and how many completed it. */
  function TapTimes(h: Heart, n: nat): (Heart, nat)
    decreases n
  {
    if n == 0 then (h, 0)
    else
      var t := TapOnce(h);
      var rest := TapTimes(t.heart, n - 1);
      (rest.0, rest.1 + (if t.done then 1 else 0))
  }

  /** From a fresh heart, `n` taps complete the challenge exactly once when
      `n` is at least five, and never otherwise. */
  lemma {:induction false} HeartCompletesOnce(h: Heart, n: nat)
    requires h.armed ==> h.taps < RequiredTaps
    ensures TapTimes(h, n).1 == (if h.armed && h.taps + n >= RequiredTaps then 1 else 0)
    ensures TapTimes(h, n).0.armed <==> h.armed && h.taps + n < RequiredTaps
    decreases n
  {
    if n > 0 {
      HeartCompletesOnce(TapOnce(h).heart, n - 1);
    }
  }

  // ---------------------------------------------------------------------
  // The final question (`showFinalChoices`)
  // ---------------------------------------------------------------------

  const YesReply: string := "YES YES YES! 🥰"
  const AutocorrectTarget: string := "YES YES YES !!"

  /** What pressing Yes or No on the final question produces: the latch
      afterwards, the chat lines added and the node entered. */
  datatype Pressed = Pressed(clicked: bool, lines: seq<ChatLine>, calls: seq<Node>)

  /** Yes and No share one latch. Yes sends "YES YES YES! 🥰"; No is
      autocorrected into a sent "YES YES YES !!" with a notice, and no
      reaction message. Both go on to the celebration. */
  function PressFinal(clicked: bool, yes: bool): (r: Pressed)
    ensures r.clicked
    ensures clicked ==> r.lines == [] && r.calls == []
    ensures !clicked ==> r.calls == [Celebration] && |r.lines| >= 1
    // the first press sends exactly one message, a YES whichever button it was
    ensures !clicked ==> r.lines[0] == Sent(if yes then YesReply else AutocorrectTarget)
    ensures !clicked ==> forall k :: 1 <= k < |r.lines| ==> !r.lines[k].Sent?
  {
    if clicked then Pressed(true, [], [])
    else if yes then Pressed(true, [Sent(YesReply)], [Celebration])
    else Pressed(true, [Sent(AutocorrectTarget), Notice("Autocorrected to \"" + AutocorrectTarget + "\"")], [Celebration])
  }

  /** Presses on Yes (`true`) or No (`false`) in turn, with the lines and
      calls of all of them. */
  function PressAll(clicked: bool, presses: seq<bool>): Pressed
    decreases |presses|
  {
    if presses == [] then Pressed(clicked, [], [])
    else
      var first := PressFinal(clicked, presses[0]);
      var rest := PressAll(first.clicked, presses[1..]);
      Pressed(rest.clicked, first.lines + rest.lines, first.calls + rest.calls)
  }

  /** Yes and No share the latch: whatever mix of presses arrives, the
      celebration is entered exactly once, with the lines of the first. */
  lemma {:induction false} FinalLatchOnce(presses: seq<bool>)
    requires presses != []
    ensures PressAll(false, presses).calls == [Celebration]
    ensures PressAll(false, presses).lines == PressFinal(false, presses[0]).lines
  {
    LatchedPressesDoNothing(presses[1..]);
  }

  lemma {:induction false} LatchedPressesDoNothing(presses: seq<bool>)
    ensures PressAll(true, presses) == Pressed(true, [], [])
    decreases |presses|
  {
    if presses != [] {
      LatchedPressesDoNothing(presses[1..]);
    }
  }

  // ---------------------------------------------------------------------
  // The script
  // ---------------------------------------------------------------------

  /** The script graph: the nodes a node may hand over to. */
  predicate Edge(a: Node, b: Node) {
    match a
    case StartChat => b == FlowPart2
    case FlowPart2 => b == FlowPart3 || b == HeartChallenge || b == FlowTicTacToe
    case HeartChallenge => b == FlowPart3
    case FlowTicTacToe => b == FlowPart3
    case FlowPart3 => b == Celebration
    case Celebration => false
  }

  /** The buttons a node offers. Every one of them calls a node the
      script graph allows, every edge out of a question has a button, and
      only the first two questions offer any. */
  function ChoicesOf(n: Node): (r: seq<Choice>)
    ensures forall k :: 0 <= k < |r| ==> r[k].callback.Some? && Edge(n, r[k].callback.value)
    ensures forall m :: (n == StartChat || n == FlowPart2) && Edge(n, m)
              ==> exists k :: 0 <= k < |r| && r[k].callback == Some(m)
    ensures |r| > 0 <==> n == StartChat || n == FlowPart2
  {
    match n
    case StartChat =>
      var r := [
        Choice("Sure! 😊", false, Some(FlowPart2)),
        Choice("What is it? 🤔", false, Some(FlowPart2))];
      assert r[0].callback == Some(FlowPart2);
      r
    case FlowPart2 =>
      var r := [
        Choice("Yep!", false, Some(FlowPart3)),
        Choice("Maybe...", false, Some(HeartChallenge)),
        Choice("No", false, Some(FlowTicTacToe))];
      assert r[0].callback == Some(FlowPart3) && r[1].callback == Some(HeartChallenge)
        && r[2].callback == Some(FlowTicTacToe);
      r
    case _ => []
  }

  /** The messages a node delivers on entry, in order. */
  function Says(n: Node): (r: seq<ChatLine>)
    // every node delivers something, and none of it is the human-win reply
    ensures |r| > 0
    ensures Received(WinReply) !in r
  {
    match n
    case StartChat => [Received("Hey… can I ask you something? 💌")]
    case FlowPart2 => [Received("Are you free this weekend?")]
    case HeartChallenge => [Received("Maybe? Hmm… let’s see how much your heart wants it! 💓 Tap the heart!")]
    case FlowTicTacToe => [
      Received("Not free? We'll see about that! 😈"),
      Received("Beat me at Tic-Tac-Toe and I'll let you go! 🎲")]
    case FlowPart3 => [
      Received("Okay, last question... 🙈"),
      Received("Will you be my Valentine? 💖")]
    case Celebration => [Received("YAY! See you this weekend! 😘❤️")]
  }

  const HeartReply: string := "Haha, looks like your heart has something to say! 😆"
  const WinReply: string := "Okay okay, you win... but wait!"

  /** The message `flowTicTacToe` sends for the game's result. */
  function GameReply(result: Result): string {
    match result
    case Loss => "I win! You have to listen now! 😎"
    case Draw => "Draw means I still get to ask! 😜"
    case Win => WinReply
  }

  /** Something the user can act on. */
  datatype Widget =
    | Buttons(choices: ChoiceSet)
    | FinalButtons(clicked: bool)
    | HeartButton(heart: Heart)
    | GameBoard(game: Game)

  /** The widget a node renders once its messages are delivered. */
  function Render(n: Node): (r: Option<Widget>)
    // every node but the celebration renders input, fresh and fitting the node
    ensures r.Some? <==> n != Celebration
    ensures r.Some? ==> Fits(r.value, n) && !Spent(r.value)
  {
    Engine.StartInv();
    match n
    case StartChat => Some(Buttons(ChoiceSet(ChoicesOf(StartChat), false)))
    case FlowPart2 => Some(Buttons(ChoiceSet(ChoicesOf(FlowPart2), false)))
    case HeartChallenge => Some(HeartButton(Heart(0, true)))
    case FlowTicTacToe => Some(GameBoard(Engine.Start))
    case FlowPart3 => Some(FinalButtons(false))
    case Celebration => None
  }

  /** The conversation so far: every widget ever rendered (oldest first),
      the chat transcript, and the nodes entered in order. */
  datatype Session = Session(widgets: seq<Widget>, transcript: seq<ChatLine>, visited: seq<Node>)

  /** Run node `n`: deliver its messages, then render its widget. */
  function Enter(s: Session, n: Node): (r: Session)
    ensures r.visited == s.visited + [n]
    ensures r.transcript == s.transcript + Says(n)
    ensures Render(n).Some? ==> r.widgets == s.widgets + [Render(n).value]
    ensures Render(n).None? ==> r.widgets == s.widgets
  {
    var shown := s.(visited := s.visited + [n], transcript := s.transcript + Says(n));
    match Render(n)
    case Some(w) => shown.(widgets := s.widgets + [w])
    case None => shown
  }

  /** The page after `startChat()`. */
  const Begin: Session := Enter(Session([], [], []), StartChat)

  /** A user action on widget `w`. */
  datatype Input =
    | Pick(w: nat, k: nat)
    | PickFinal(w: nat, yes: bool)
    | TapHeart(w: nat)
    | Play(w: nat, e: Engine.Event)

  function SentLines(texts: seq<string>): (r: seq<ChatLine>)
    ensures |r| == |texts|
    ensures forall i :: 0 <= i < |r| ==> r[i] == Sent(texts[i])
  {
    if texts == [] then [] else [Sent(texts[0])] + SentLines(texts[1..])
  }

  /** Enter the node called, if any. */
  function Continue(s: Session, calls: seq<Node>): Session {
    if calls == [] then s else Enter(s, calls[0])
  }

  /** The callback `flowTicTacToe` passes to the game: whatever the result,
      one reply and then the last question. */
  function AfterGame(s: Session, result: Result): (r: Session)
    ensures r.visited == s.visited + [FlowPart3]
    ensures |r.transcript| > |s.transcript| && r.transcript[..|s.transcript|] == s.transcript
    ensures r.transcript[|s.transcript|] == Received(GameReply(result))
  {
    var r := Enter(s.(transcript := s.transcript + [Received(GameReply(result))]), FlowPart3);
    assert r.transcript == s.transcript + [Received(GameReply(result))] + Says(FlowPart3);
    r
  }

  /** Apply one user action; an action on a widget that does not exist
      or is of another kind does nothing. */
  function Handle(s: Session, input: Input): Session {
    match input
    case Pick(w, k) =>
      if w < |s.widgets| && s.widgets[w].Buttons? && k < |s.widgets[w].choices.options| then
        var sel := Select(s.widgets[w].choices, k);
        var s1 := s.(widgets := s.widgets[w := Buttons(sel.choices)],
                     transcript := s.transcript + SentLines(sel.sent));
        Continue(s1, sel.calls)
      else s
    case PickFinal(w, yes) =>
      if w < |s.widgets| && s.widgets[w].FinalButtons? then
        var p := PressFinal(s.widgets[w].clicked, yes);
        var s1 := s.(widgets := s.widgets[w := FinalButtons(p.clicked)],
                     transcript := s.transcript + p.lines);
        Continue(s1, p.calls)
      else s
    case TapHeart(w) =>
      if w < |s.widgets| && s.widgets[w].HeartButton? then
        var t := TapOnce(s.widgets[w].heart);
        var s1 := s.(widgets := s.widgets[w := HeartButton(t.heart)]);
        if t.done then Enter(s1.(transcript := s1.transcript + [Received(HeartReply)]), FlowPart3)
        else s1
      else s
    case Play(w, e) =>
      if w < |s.widgets| && s.widgets[w].GameBoard? then
        GameMoved(s, w, Engine.Step(s.widgets[w].game, e))
      else s
  }

  /** The game in widget `w` has become `g'`: when it has just reported a
      result, the game's callback runs. */
  function GameMoved(s: Session, w: nat, g': Game): Session
    requires w < |s.widgets| && s.widgets[w].GameBoard?
  {
    var s1 := s.(widgets := s.widgets[w := GameBoard(g')]);
    if |g'.reported| > |s.widgets[w].game.reported| then AfterGame(s1, g'.reported[|g'.reported| - 1])
    else s1
  }

  function Converse(s: Session, inputs: seq<Input>): Session
    decreases |inputs|
  {
    if inputs == [] then s else Converse(Handle(s, inputs[0]), inputs[1..])
  }

  // ---------------------------------------------------------------------
  // Invariant of the conversation
  // ---------------------------------------------------------------------

  /** The nodes entered start at `startChat` and follow the script graph. */
  predicate OnScript(v: seq<Node>) {
    |v| >= 1 && v[0] == StartChat && forall i :: 0 <= i < |v| - 1 ==> Edge(v[i], v[i + 1])
  }

  /** Widget `w` is the one node `n` renders, possibly after some input. */
  predicate Fits(w: Widget, n: Node) {
    match n
    case StartChat => w.Buttons? && w.choices.options == ChoicesOf(StartChat)
    case FlowPart2 => w.Buttons? && w.choices.options == ChoicesOf(FlowPart2)
    case HeartChallenge => w.HeartButton? && (w.heart.armed ==> w.heart.taps < RequiredTaps)
    case FlowTicTacToe => w.GameBoard? && Engine.Inv(w.game)
    case FlowPart3 => w.FinalButtons?
    case Celebration => false
  }

  /** A widget that can no longer move the conversation on. */
  predicate Spent(w: Widget) {
    match w
    case Buttons(cs) => cs.clicked
    case FinalButtons(clicked) => clicked
    case HeartButton(h) => !h.armed
    case GameBoard(g) => g.reported != []
  }

  predicate SessionInv(s: Session) {
    && OnScript(s.visited)
    && var last := |s.visited| - 1;
    && |s.widgets| == (if s.visited[last] == Celebration then last else last + 1)
    // widget j belongs to the j-th node entered
    && (forall j :: 0 <= j < |s.widgets| ==> Fits(s.widgets[j], s.visited[j]))
    // every widget but the current node's is spent: at most one is armed
    && (forall j :: 0 <= j < |s.widgets| && j != last ==> Spent(s.widgets[j]))
    && (last < |s.widgets| ==> !Spent(s.widgets[last]))
    // the reply to a human win never appears
    && Received(WinReply) !in s.transcript
  }

  lemma BeginInv()
    ensures SessionInv(Begin)
  {
  }

  /** A spent game never reports again. */
  lemma SpentGameStaysSpent(g: Game, e: Engine.Event)
    requires Engine.Inv(g) && g.reported != []
    ensures Engine.Step(g, e).reported == g.reported
  {
  }

  /** A game report is a loss, so its reply is never the human-win reply. */
  lemma GameReportIsLoss(g: Game, e: Engine.Event)
    requires Engine.Inv(g) && g.reported == []
    ensures var g' := Engine.Step(g, e);
      Engine.Inv(g') && (|g'.reported| > 0 ==> g'.reported[|g'.reported| - 1] == Loss)
  {
    Engine.StepInv(g, e);
  }

  lemma EnterInv(s: Session, n: Node)
    requires OnScript(s.visited) && Edge(s.visited[|s.visited| - 1], n)
    requires s.visited[|s.visited| - 1] != Celebration
    requires |s.widgets| == |s.visited|
    requires forall j :: 0 <= j < |s.widgets| ==> Fits(s.widgets[j], s.visited[j]) && Spent(s.widgets[j])
    requires Received(WinReply) !in s.transcript
    ensures SessionInv(Enter(s, n))
  {
    var r := Enter(s, n);
    var v := s.visited;
    assert r.visited == v + [n];
    assert OnScript(r.visited) by {
      forall i | 0 <= i < |r.visited| - 1
        ensures Edge(r.visited[i], r.visited[i + 1])
      {
        if i < |v| - 1 {
          assert r.visited[i] == v[i] && r.visited[i + 1] == v[i + 1];
        }
      }
    }
    assert Received(WinReply) !in r.transcript;
    forall j | 0 <= j < |r.widgets|
      ensures Fits(r.widgets[j], r.visited[j])
      ensures j != |r.visited| - 1 ==> Spent(r.widgets[j])
    {
      if j < |s.widgets| {
        assert r.widgets[j] == s.widgets[j] && r.visited[j] == v[j];
      }
    }
  }

  lemma HandleInv(s: Session, input: Input)
    requires SessionInv(s)
    ensures SessionInv(Handle(s, input))
  {
    match input
    case Pick(w, k) => PickInv(s, w, k);
    case PickFinal(w, yes) => PickFinalInv(s, w, yes);
    case TapHeart(w) => TapHeartInv(s, w);
    case Play(w, e) => PlayInv(s, w, e);
  }

  lemma PickInv(s: Session, w: nat, k: nat)
    requires SessionInv(s)
    ensures SessionInv(Handle(s, Pick(w, k)))
  {
    if w < |s.widgets| && s.widgets[w].Buttons? && k < |s.widgets[w].choices.options| {
      var cs := s.widgets[w].choices;
      var sel := Select(cs, k);
      var s1 := s.(widgets := s.widgets[w := Buttons(sel.choices)],
                   transcript := s.transcript + SentLines(sel.sent));
      if cs.clicked {
        assert s1.widgets == s.widgets;
        assert s1.transcript == s.transcript;
      } else {
        assert w == |s.visited| - 1;
        assert Received(WinReply) !in SentLines(sel.sent);
        EnterInv(s1, sel.calls[0]);
      }
    }
  }

  lemma PickFinalInv(s: Session, w: nat, yes: bool)
    requires SessionInv(s)
    ensures SessionInv(Handle(s, PickFinal(w, yes)))
  {
    if w < |s.widgets| && s.widgets[w].FinalButtons? {
      var p := PressFinal(s.widgets[w].clicked, yes);
      var s1 := s.(widgets := s.widgets[w := FinalButtons(p.clicked)],
                   transcript := s.transcript + p.lines);
      if s.widgets[w].clicked {
        assert s1.widgets == s.widgets;
        assert s1.transcript == s.transcript;
      } else {
        assert w == |s.visited| - 1;
        assert Received(WinReply) !in p.lines;
        EnterInv(s1, Celebration);
      }
    }
  }

  lemma TapHeartInv(s: Session, w: nat)
    requires SessionInv(s)
    ensures SessionInv(Handle(s, TapHeart(w)))
  {
    if w < |s.widgets| && s.widgets[w].HeartButton? {
      var t := TapOnce(s.widgets[w].heart);
      var s1 := s.(widgets := s.widgets[w := HeartButton(t.heart)]);
      if !s.widgets[w].heart.armed {
        assert s1.widgets == s.widgets;
      } else {
        assert w == |s.visited| - 1;
        if t.done {
          var s2 := s1.(transcript := s1.transcript + [Received(HeartReply)]);
          EnterInv(s2, FlowPart3);
        }
      }
    }
  }

  lemma PlayInv(s: Session, w: nat, e: Engine.Event)
    requires SessionInv(s)
    ensures SessionInv(Handle(s, Play(w, e)))
  {
    if w < |s.widgets| && s.widgets[w].GameBoard? {
      if s.widgets[w].game.reported != [] {
        PlaySpentInv(s, w, e);
      } else {
        PlayLiveInv(s, w, e);
      }
    }
  }

  /** Input on a finished game changes only that game's widget. */
  lemma PlaySpentInv(s: Session, w: nat, e: Engine.Event)
    requires SessionInv(s)
    requires w < |s.widgets| && s.widgets[w].GameBoard? && s.widgets[w].game.reported != []
    ensures SessionInv(Handle(s, Play(w, e)))
  {
    var g := s.widgets[w].game;
    Engine.StepInv(g, e);
    SpentGameStaysSpent(g, e);
    SpentGameMovedInv(s, w, Engine.Step(g, e));
  }

  lemma SpentGameMovedInv(s: Session, w: nat, g': Game)
    requires SessionInv(s)
    requires w < |s.widgets| && s.widgets[w].GameBoard? && s.widgets[w].game.reported != []
    requires Engine.Inv(g') && g'.reported == s.widgets[w].game.reported
    ensures SessionInv(GameMoved(s, w, g'))
  {
    var s1 := s.(widgets := s.widgets[w := GameBoard(g')]);
    assert GameMoved(s, w, g') == s1;
    assert Fits(s1.widgets[w], s1.visited[w]) && Spent(s1.widgets[w]);
  }

  /** Input on the live game either keeps it going or reports a loss and
      moves on to the last question. */
  lemma PlayLiveInv(s: Session, w: nat, e: Engine.Event)
    requires SessionInv(s)
    requires w < |s.widgets| && s.widgets[w].GameBoard? && s.widgets[w].game.reported == []
    ensures SessionInv(Handle(s, Play(w, e)))
  {
    var g := s.widgets[w].game;
    GameReportIsLoss(g, e);
    LiveGameMovedInv(s, w, Engine.Step(g, e));
  }

  lemma LiveGameMovedInv(s: Session, w: nat, g': Game)
    requires SessionInv(s)
    requires w < |s.widgets| && s.widgets[w].GameBoard? && s.widgets[w].game.reported == []
    requires Engine.Inv(g') && (|g'.reported| > 0 ==> g'.reported[|g'.reported| - 1] == Loss)
    ensures SessionInv(GameMoved(s, w, g'))
  {
    var s1 := s.(widgets := s.widgets[w := GameBoard(g')]);
    assert w == |s.visited| - 1;
    assert s.visited[w] == FlowTicTacToe;
    if |g'.reported| > 0 {
      var s2 := s1.(transcript := s1.transcript + [Received(GameReply(Loss))]);
      assert GameMoved(s, w, g') == AfterGame(s1, Loss);
      EnterInv(s2, FlowPart3);
    } else {
      assert GameMoved(s, w, g') == s1;
    }
  }

  lemma {:induction false} ConverseInv(s: Session, inputs: seq<Input>)
    requires SessionInv(s)
    ensures SessionInv(Converse(s, inputs))
    decreases |inputs|
  {
    if inputs != [] {
      HandleInv(s, inputs[0]);
      ConverseInv(Handle(s, inputs[0]), inputs[1..]);
    }
  }

  /** The position of a node along the script; every edge moves forward. */
  function Rank(n: Node): nat {
    match n
    case StartChat => 0
    case FlowPart2 => 1
    case HeartChallenge => 2
    case FlowTicTacToe => 2
    case FlowPart3 => 3
    case Celebration => 4
  }

  lemma {:induction false} RanksIncrease(v: seq<Node>, i: nat, j: nat)
    requires OnScript(v) && i < j < |v|
    ensures Rank(v[i]) < Rank(v[j])
    decreases j - i
  {
    assert Edge(v[j - 1], v[j]);
    if i < j - 1 {
      RanksIncrease(v, i, j - 1);
    }
  }

  /** Whatever the user does, in whatever order: the conversation follows
      the script graph from `startChat`, enters no node twice, reaches the
      celebration only straight after the last question, has at most one
      widget still accepting input (the newest), and never shows the reply
      to a human win. */
  lemma ConversationFollowsScript(inputs: seq<Input>)
    ensures var s := Converse(Begin, inputs);
      && OnScript(s.visited)
      && (forall i, j :: 0 <= i < j < |s.visited| ==> s.visited[i] != s.visited[j])
      && (forall j :: 0 < j < |s.visited| && s.visited[j] == Celebration ==> s.visited[j - 1] == FlowPart3)
      && (forall j :: 0 <= j < |s.widgets| - 1 ==> Spent(s.widgets[j]))
      && Received(WinReply) !in s.transcript
  {
    BeginInv();
    ConverseInv(Begin, inputs);
    var s := Converse(Begin, inputs);
    forall i, j | 0 <= i < j < |s.visited| ensures s.visited[i] != s.visited[j] {
      RanksIncrease(s.visited, i, j);
    }
    forall j | 0 < j < |s.visited| && s.visited[j] == Celebration ensures s.visited[j - 1] == FlowPart3 {
      assert Edge(s.visited[j - 1], s.visited[j]);
    }
  }

  /** Answering every question with the first option visits the first
      question, the second, the last, then the celebration. */
  lemma FirstOptionEverywhere()
    ensures Converse(Begin, [Pick(0, 0), Pick(1, 0), PickFinal(2, true)]).visited
            == [StartChat, FlowPart2, FlowPart3, Celebration]
  {
    var s1 := Handle(Begin, Pick(0, 0));
    assert s1.visited == [StartChat, FlowPart2];
    var s2 := Handle(s1, Pick(1, 0));
    assert s2.visited == [StartChat, FlowPart2, FlowPart3];
    var s3 := Handle(s2, PickFinal(2, true));
    assert s3.visited == [StartChat, FlowPart2, FlowPart3, Celebration];
    assert Converse(s3, []) == s3;
    assert Converse(Begin, [Pick(0, 0), Pick(1, 0), PickFinal(2, true)]) == Converse(s1, [Pick(1, 0), PickFinal(2, true)]);
    assert Converse(s1, [Pick(1, 0), PickFinal(2, true)]) == Converse(s2, [PickFinal(2, true)]);
  }

  /** A double click on the first question's buttons sends one message
      and moves on once. */
  lemma DoubleClickAdvancesOnce()
    ensures var s := Converse(Begin, [Pick(0, 0), Pick(0, 1)]);
      && s.visited == [StartChat, FlowPart2]
      && s.transcript == Says(StartChat) + [Sent("Sure! 😊")] + Says(FlowPart2)
  {
    var s1 := Handle(Begin, Pick(0, 0));
    var s2 := Handle(s1, Pick(0, 1));
    assert s2 == s1;
    assert Converse(Begin, [Pick(0, 0), Pick(0, 1)]) == Converse(s1, [Pick(0, 1)]);
    assert Converse(s1, [Pick(0, 1)]) == Converse(s2, []);
  }

  /** A pick on the live question enters the node of the button chosen,
      after echoing its label. */
  lemma PickEntersChosen(s: Session, k: nat)
    requires SessionInv(s) && |s.widgets| == |s.visited|
    requires s.widgets[|s.widgets| - 1].Buttons? && k < |s.widgets[|s.widgets| - 1].choices.options|
    ensures var c := s.widgets[|s.widgets| - 1].choices.options[k];
      && c.callback.Some?
      && Handle(s, Pick(|s.widgets| - 1, k)).visited == s.visited + [c.callback.value]
      && Handle(s, Pick(|s.widgets| - 1, k)).transcript == s.transcript + [Sent(c.text)] + Says(c.callback.value)
  {
    var w := |s.widgets| - 1;
    var cs := s.widgets[w].choices;
    LiveQuestion(s);
    var c := cs.options[k];
    assert c.callback.Some? && !c.skipMessage;
    var sel := Select(cs, k);
    assert sel.sent == [c.text] && sel.calls == [c.callback.value];
    assert SentLines(sel.sent) == [Sent(c.text)];
  }

  /** The newest widget of a session, when it is a group of buttons, is
      the live group of one of the first two questions. */
  lemma LiveQuestion(s: Session)
    requires SessionInv(s) && |s.widgets| == |s.visited|
    requires s.widgets[|s.widgets| - 1].Buttons?
    ensures var cs := s.widgets[|s.widgets| - 1].choices;
      && !cs.clicked
      && (forall k :: 0 <= k < |cs.options| ==> cs.options[k].callback.Some? && !cs.options[k].skipMessage)
  {
    var w := |s.widgets| - 1;
    assert Fits(s.widgets[w], s.visited[w]);
    assert s.visited[w] == StartChat || s.visited[w] == FlowPart2;
  }

  /** Answering "No" to the second question starts the game. */
  lemma NoStartsGame()
    ensures Converse(Begin, [Pick(0, 0), Pick(1, 2)]).visited == [StartChat, FlowPart2, FlowTicTacToe]
  {
    var s1 := Handle(Begin, Pick(0, 0));
    assert s1.visited == [StartChat, FlowPart2];
    assert s1.widgets[1] == Buttons(ChoiceSet(ChoicesOf(FlowPart2), false));
    var sel := Select(s1.widgets[1].choices, 2);
    assert sel.calls == [FlowTicTacToe];
    var s2 := Handle(s1, Pick(1, 2));
    assert s2.visited == [StartChat, FlowPart2, FlowTicTacToe];
    assert Converse(Begin, [Pick(0, 0), Pick(1, 2)]) == Converse(s1, [Pick(1, 2)]);
    assert Converse(s1, [Pick(1, 2)]) == Converse(s2, []);
  }

  /** At the second question, "Yep!" goes to the last question, "Maybe..."
      to the heart challenge and "No" to the game. */
  lemma SecondQuestionBranches(s: Session)
    requires SessionInv(s) && |s.widgets| == |s.visited| && s.visited[|s.visited| - 1] == FlowPart2
    ensures Handle(s, Pick(|s.widgets| - 1, 0)).visited == s.visited + [FlowPart3]
    ensures Handle(s, Pick(|s.widgets| - 1, 1)).visited == s.visited + [HeartChallenge]
    ensures Handle(s, Pick(|s.widgets| - 1, 2)).visited == s.visited + [FlowTicTacToe]
  {
    var w := |s.widgets| - 1;
    assert Fits(s.widgets[w], s.visited[w]);
    assert s.widgets[w].choices.options == ChoicesOf(FlowPart2);
    PickEntersChosen(s, 0);
    PickEntersChosen(s, 1);
    PickEntersChosen(s, 2);
  }
}

=== FILE: policy.dfy ===
/**
 How the chat partner (O) chooses its move on a normal turn: win if it
 can, otherwise block X unless the late-game coin says to leave the
 threat open, otherwise take the centre, otherwise any empty cell.
 The two `Math.random()` draws come in as `coin` (true when the draw
 exceeds 0.5) and `pick` (the empty cell chosen is `pick` modulo the
 number of empty cells, so every empty cell can be chosen).
 */
module Policy {
  import opened TicTacToe

  /** `shouldSkipBlock`: leaving X's threat open is possible only once
      at most four cells are empty. */
  predicate SkipsBlock(board: Board, coin: bool) {
    EmptyCount(board) <= 4 && coin
  }

  /** The cell O plays, or -1 when there is none. */
  function ChooseMove(board: Board, coin: bool, pick: nat): (r: int)
    // a move exists exactly when a cell is free, and it goes into a free cell
    ensures r == -1 <==> Full(board)
    ensures r != -1 ==> 0 <= r < 9 && board[r] == Empty
    // 1. an immediate win for O is always taken, whatever the coin says
    ensures WinningMove(board, O) != -1 ==> r == WinningMove(board, O)
    // 2. otherwise X's immediate win is blocked, always while more than four cells are free
    ensures (WinningMove(board, O) == -1 && WinningMove(board, X) != -1 && !SkipsBlock(board, coin))
              ==> r == WinningMove(board, X)
    ensures (WinningMove(board, O) == -1 && WinningMove(board, X) != -1 && EmptyCount(board) > 4)
              ==> r == WinningMove(board, X)
    // 3. otherwise the centre, when free
    ensures (WinningMove(board, O) == -1 && (WinningMove(board, X) == -1 || SkipsBlock(board, coin))
              && board[4] == Empty) ==> r == 4
  {
    var move := WinningMove(board, O);
    var move := if move == -1 && !SkipsBlock(board, coin) then WinningMove(board, X) else move;
    if move != -1 then move
    else if board[4] == Empty then 4
    else RandomFree(board, pick)
  }

  /** The board once O's move is on it; a full board is left alone. */
  function ReplyBoard(board: Board, coin: bool, pick: nat): (r: Board)
    // O fills exactly one free cell unless none is left
    ensures ChangesAtMostOne(board, r, Empty, O)
    ensures r == board <==> Full(board)
    // an immediate win for O is always played
    ensures WinningMove(board, O) != -1 ==> r == board[WinningMove(board, O) := O]
    // O's move never gives X a line
    ensures HasLine(r, X) ==> HasLine(board, X)
  {
    var move := ChooseMove(board, coin, pick);
    if move == -1 then board
    else
      PlacingKeepsOtherLines(board, move, O, X);
      UpdateChangesOne(board, move, Empty, O);
      assert board[move := O][move] != board[move];
      board[move := O]
  }

  /** Step 4: the free cell the random draw lands on, or -1 on a full board. */
  function RandomFree(board: Board, pick: nat): (r: int)
    ensures r == -1 <==> Full(board)
    ensures r != -1 ==> 0 <= r < 9 && board[r] == Empty
  {
    var available := Indices(board, Empty);
    assert |available| == EmptyCount(board);
    if |available| > 0 then available[pick % |available|] else -1
  }

  /** 4. With no win to take, no block made and the centre taken, the
      random draw can land on every free cell. */
  lemma RandomReachesEveryFreeCell(board: Board, coin: bool, j: Index)
    requires WinningMove(board, O) == -1
    requires WinningMove(board, X) == -1 || SkipsBlock(board, coin)
    requires board[4] != Empty && board[j] == Empty
    ensures exists pick: nat :: ChooseMove(board, coin, pick) == j
  {
    var p := RandomFreeCovers(board, j);
    assert ChooseMove(board, coin, p) == RandomFree(board, p);
  }

  /** Every free cell is where some draw lands. */
  lemma RandomFreeCovers(board: Board, j: Index) returns (pick: nat)
    requires board[j] == Empty
    ensures RandomFree(board, pick) == j
  {
    var available := Indices(board, Empty);
    assert j in available;
    var p :| 0 <= p < |available| && available[p] == j;
    SmallMod(p, |available|);
    pick := p;
  }

  lemma SmallMod(p: nat, n: nat)
    requires p < n
    ensures p % n == p
  {
  }
}

=== FILE: tictactoe.dfy ===
/**
 The board of the tic-tac-toe mini-game: nine cells, the eight winning lines,
 the win detector and the one-ply searches the rigged engine builds on.
 The human plays X and the chat partner plays O; an empty cell is the
 source's `null`.
 */
module TicTacToe {

  datatype Cell = Empty | X | O

  /** A cell position, 0..8, row by row. */
  type Index = i: int | 0 <= i < 9

  /** The board is always exactly nine cells. */
  type Board = b: seq<Cell> | |b| == 9
    witness [Empty, Empty, Empty, Empty, Empty, Empty, Empty, Empty, Empty]

  const EmptyBoard: Board := [Empty, Empty, Empty, Empty, Empty, Empty, Empty, Empty, Empty]

  datatype Line = Line(a: Index, b: Index, c: Index)

  /** The eight lines in the order the win detector scans them:
      rows, columns, then the two diagonals. */
  const Lines: seq<Line> := [
    Line(0, 1, 2), Line(3, 4, 5), Line(6, 7, 8),
    Line(0, 3, 6), Line(1, 4, 7), Line(2, 5, 8),
    Line(0, 4, 8), Line(2, 4, 6)
  ]

  /** Line `l` holds three copies of the non-empty mark `m`. */
  predicate Owns(board: Board, l: Line, m: Cell) {
    m != Empty && board[l.a] == m && board[l.b] == m && board[l.c] == m
  }

  /** Some line holds three copies of the non-empty mark `m`. */
  predicate HasLine(board: Board, m: Cell) {
    exists k :: 0 <= k < |Lines| && Owns(board, Lines[k], m)
  }

  /** Neither player has a line. */
  predicate NoLine(board: Board) {
    !HasLine(board, X) && !HasLine(board, O)
  }

  predicate Full(board: Board) {
    forall i: Index :: board[i] != Empty
  }

  /** Line `k` is won by whatever mark sits on its first cell. */
  predicate Won(board: Board, k: nat)
    requires k < |Lines|
  {
    var l := Lines[k];
    board[l.a] != Empty && board[l.a] == board[l.b] && board[l.a] == board[l.c]
  }

  /** `after` is `before` with at most one cell changed, from `from` to `to`. */
  predicate ChangesAtMostOne(before: Board, after: Board, from: Cell, to: Cell) {
    forall j: Index :: after[j] != before[j] ==> before[j] == from && after == before[j := to]
  }

  /** Writing `to` over the `from` on cell `i` changes that cell alone. */
  lemma UpdateChangesOne(board: Board, i: Index, from: Cell, to: Cell)
    requires board[i] == from
    ensures ChangesAtMostOne(board, board[i := to], from, to)
  {
  }

  /** Writing `p` into one cell cannot give a line to any other mark. */
  lemma PlacingKeepsOtherLines(board: Board, i: Index, p: Cell, m: Cell)
    requires m != p
    ensures HasLine(board[i := p], m) ==> HasLine(board, m)
  {
    if HasLine(board[i := p], m) {
      var k :| 0 <= k < |Lines| && Owns(board[i := p], Lines[k], m);
      assert Owns(board, Lines[k], m);
    }
  }

  /** A line needs three cells, so a mark on at most two cells has none. */
  lemma TwoMarksNoLine(board: Board, m: Cell, i: Index, j: Index)
    requires forall k: Index :: k != i && k != j ==> board[k] != m
    ensures !HasLine(board, m)
  {
    forall k | 0 <= k < |Lines|
      ensures !Owns(board, Lines[k], m)
    {
      var l := Lines[k];
      assert l.a != l.b && l.b != l.c && l.a != l.c;
    }
  }

  /** A board where `m` is missing from each of the eight lines, checked
      one line at a time, gives `m` no line. */
  lemma NoLineByCases(board: Board, m: Cell)
    requires !Owns(board, Lines[0], m) && !Owns(board, Lines[1], m) && !Owns(board, Lines[2], m)
    requires !Owns(board, Lines[3], m) && !Owns(board, Lines[4], m) && !Owns(board, Lines[5], m)
    requires !Owns(board, Lines[6], m) && !Owns(board, Lines[7], m)
    ensures !HasLine(board, m)
  {
    forall k | 0 <= k < |Lines|
      ensures !Owns(board, Lines[k], m)
    {
      assert k == 0 || k == 1 || k == 2 || k == 3 || k == 4 || k == 5 || k == 6 || k == 7;
    }
  }

  /** The owner of the first won line at position `k` or later, Empty if none. */
  function WinnerFrom(board: Board, k: nat): (r: Cell)
    requires k <= |Lines|
    ensures r == Empty <==> forall j :: k <= j < |Lines| ==> !Won(board, j)
    ensures r != Empty ==> exists j :: k <= j < |Lines| && Owns(board, Lines[j], r)
    decreases |Lines| - k
  {
    if k == |Lines| then Empty
    else if Won(board, k) then board[Lines[k].a]
    else WinnerFrom(board, k + 1)
  }

  /** The source's `checkWinner`: the mark on the first complete line, or
      Empty (`null`) when no line is complete. */
  function CheckWinner(board: Board): (r: Cell)
    ensures r == Empty <==> NoLine(board)
    ensures r != Empty ==> HasLine(board, r)
    // when only one player has a line, that player is reported
    ensures HasLine(board, X) && !HasLine(board, O) ==> r == X
    ensures HasLine(board, O) && !HasLine(board, X) ==> r == O
  {
    assert forall k, m :: 0 <= k < |Lines| && Owns(board, Lines[k], m) ==> Won(board, k);
    WinnerFrom(board, 0)
  }

  /** The scan from `k` reports the owner of the FIRST won line at or after
      `k`: every line before it is unwon. */
  lemma {:induction false} WinnerFromFirst(board: Board, k: nat)
    requires k <= |Lines|
    ensures WinnerFrom(board, k) != Empty ==>
              exists j :: k <= j < |Lines| && Won(board, j) && WinnerFrom(board, k) == board[Lines[j].a]
                          && forall i :: k <= i < j ==> !Won(board, i)
    decreases |Lines| - k
  {
    if k == |Lines| {
    } else if !Won(board, k) {
      WinnerFromFirst(board, k + 1);
      if WinnerFrom(board, k) != Empty {
        var j :| k + 1 <= j < |Lines| && Won(board, j) && WinnerFrom(board, k + 1) == board[Lines[j].a]
                 && forall i :: k + 1 <= i < j ==> !Won(board, i);
        assert forall i :: k <= i < j ==> !Won(board, i);
      }
    }
  }

  /** Whichever marks have a line, `checkWinner` reports the owner of the
      first won line in scan order. */
  lemma CheckWinnerFirst(board: Board)
    ensures CheckWinner(board) != Empty ==>
              exists j :: 0 <= j < |Lines| && Won(board, j) && CheckWinner(board) == board[Lines[j].a]
                          && forall i :: 0 <= i < j ==> !Won(board, i)
  {
    WinnerFromFirst(board, 0);
  }

  /** The positions, in increasing order, whose cell holds `m` from `i` on. */
  function IndicesFrom(board: Board, m: Cell, i: nat): (r: seq<Index>)
    requires i <= 9
    ensures forall j :: j in r <==> i <= j < 9 && board[j] == m
    ensures forall p, q :: 0 <= p < q < |r| ==> r[p] < r[q]
    ensures forall p :: 0 <= p < |r| ==> i <= r[p]
    decreases 9 - i
  {
    if i == 9 then []
    else if board[i] == m then [i as Index] + IndicesFrom(board, m, i + 1)
    else IndicesFrom(board, m, i + 1)
  }

  /** Every position holding `m`, in increasing order: the source's
      `available` list for `m` = Empty and its `xIndices` for `m` = X. */
  function Indices(board: Board, m: Cell): (r: seq<Index>)
    ensures forall j: Index :: j in r <==> board[j] == m
    ensures forall p, q :: 0 <= p < q < |r| ==> r[p] < r[q]
  {
    IndicesFrom(board, m, 0)
  }

  /** How many cells from position `i` on hold `m`. */
  function CountFrom(board: Board, m: Cell, i: nat): nat
    requires i <= 9
    decreases 9 - i
  {
    if i == 9 then 0 else (if board[i] == m then 1 else 0) + CountFrom(board, m, i + 1)
  }

  /** `IndicesFrom` lists as many positions as there are cells holding `m`. */
  lemma {:induction false} IndicesFromCount(board: Board, m: Cell, i: nat)
    requires i <= 9
    ensures |IndicesFrom(board, m, i)| == CountFrom(board, m, i)
    decreases 9 - i
  {
    if i < 9 {
      IndicesFromCount(board, m, i + 1);
    }
  }

  /** The number of empty cells (the source's `emptySpots`). */
  function EmptyCount(board: Board): (n: nat)
    ensures n == CountFrom(board, Empty, 0)
    ensures n == 0 <==> Full(board)
    ensures n <= 9
  {
    var r := Indices(board, Empty);
    IncreasingBounded(r);
    IndicesFromCount(board, Empty, 0);
    assert Full(board) ==> |r| == 0 by {
      if |r| > 0 { assert board[r[0]] == Empty; }
    }
    |r|
  }

  /** A strictly increasing sequence of positions has at most nine elements. */
  lemma {:induction false} IncreasingBounded(r: seq<Index>)
    requires forall p, q :: 0 <= p < q < |r| ==> r[p] < r[q]
    ensures |r| <= 9
  {
    if |r| > 0 {
      IncreasingFloor(r, |r| - 1);
    }
  }

  lemma {:induction false} IncreasingFloor(r: seq<Index>, k: nat)
    requires forall p, q :: 0 <= p < q < |r| ==> r[p] < r[q]
    requires k < |r|
    ensures r[k] >= k
  {
    if k > 0 {
      IncreasingFloor(r, k - 1);
    }
  }

  /** Playing `p` on the empty cell `i` makes the win detector report `p`. */
  predicate WinsAt(board: Board, i: Index, p: Cell) {
    board[i] == Empty && CheckWinner(board[i := p]) == p
  }

  /** The lowest winning cell for `p` at position `i` or later, or -1. */
  function WinningMoveFrom(board: Board, p: Cell, i: nat): (r: int)
    requires i <= 9
    ensures r == -1 || (i <= r < 9 && WinsAt(board, r, p))
    ensures r == -1 <==> forall j: Index :: i <= j ==> !WinsAt(board, j, p)
    ensures forall j: Index :: i <= j < r ==> !WinsAt(board, j, p)
    decreases 9 - i
  {
    if i == 9 then -1
    else if WinsAt(board, i, p) then i
    else WinningMoveFrom(board, p, i + 1)
  }

  /** `findWinningMove(player)`: the lowest empty cell on which `p` would
      win at once, or -1 when there is none. */
  function WinningMove(board: Board, p: Cell): (r: int)
    ensures r == -1 || (0 <= r < 9 && WinsAt(board, r, p))
    ensures r == -1 <==> forall j: Index :: !WinsAt(board, j, p)
    ensures forall j: Index :: j < r ==> !WinsAt(board, j, p)
  {
    WinningMoveFrom(board, p, 0)
  }

  /** The source's search as written: it writes `p` into each empty cell in
      turn, asks the win detector, and clears the cell again before going
      on or returning. `after` is the board once the search is over. */
  method FindWinningMove(board: Board, p: Cell) returns (move: int, after: Board)
    ensures after == board
    ensures move == WinningMove(board, p)
    ensures move == -1 || (0 <= move < 9 && board[move] == Empty && CheckWinner(board[move := p]) == p)
  {
    var cur := board;
    var i := 0;
    while i < 9
      invariant 0 <= i <= 9
      invariant cur == board
      invariant forall j: Index :: j < i ==> !WinsAt(board, j, p)
    {
      if cur[i] == Empty {
        cur := cur[i := p];
        if CheckWinner(cur) == p {
          cur := cur[i := Empty];
          return i, cur;
        }
        cur := cur[i := Empty];
      }
      i := i + 1;
    }
    return -1, cur;
  }

  /** Line `k` holds two O's and one X. */
  predicate TwoOneX(board: Board, k: nat)
    requires k < |Lines|
  {
    CountOn(board, Lines[k], O) == 2 && CountOn(board, Lines[k], X) == 1
  }

  /** How many of the three cells of `l` hold `m`. */
  function CountOn(board: Board, l: Line, m: Cell): nat {
    (if board[l.a] == m then 1 else 0)
    + (if board[l.b] == m then 1 else 0)
    + (if board[l.c] == m then 1 else 0)
  }

  /** The X cell of a two-O line: checked in the order a, b, c. */
  function XCellOf(board: Board, l: Line): Index {
    if board[l.a] == X then l.a
    else if board[l.b] == X then l.b
    else l.c
  }

  /** The draw cheat's target from line `k` on: the X cell of the first
      line holding two O's and one X, or -1 when no line does. */
  function DrawTargetFrom(board: Board, k: nat): (r: int)
    requires k <= |Lines|
    ensures r == -1 <==> forall j :: k <= j < |Lines| ==> !TwoOneX(board, j)
    ensures r != -1 ==> 0 <= r < 9 && board[r] == X
    // the target comes from the first such line at or after `k`
    ensures r != -1 ==> exists j :: k <= j < |Lines| && TwoOneX(board, j) && r == XCellOf(board, Lines[j])
                                    && forall i :: k <= i < j ==> !TwoOneX(board, i)
    decreases |Lines| - k
  {
    if k == |Lines| then -1
    else if TwoOneX(board, k) then
      XCellOf(board, Lines[k])
    else DrawTargetFrom(board, k + 1)
  }

  /** The draw cheat's target: the X cell of the first line holding two
      O's and one X, or -1. */
  function DrawTarget(board: Board): (r: int)
    ensures r == -1 <==> forall j :: 0 <= j < |Lines| ==> !TwoOneX(board, j)
    ensures r != -1 ==> 0 <= r < 9 && board[r] == X
    // the target comes from the first such line, where the scan stops
    ensures r != -1 ==> exists j :: 0 <= j < |Lines| && TwoOneX(board, j) && r == XCellOf(board, Lines[j])
                                    && forall i :: 0 <= i < j ==> !TwoOneX(board, i)
    // a full board where nobody has a line always has such a line
    ensures Full(board) && NoLine(board) ==> r != -1
  {
    assert Full(board) ==> forall i: Index :: board[i] == X || board[i] == O;
    DrawTargetFrom(board, 0)
  }
}
